=== FILE: README.md ===
# Notificator: heartbeat election and notification dedup, in Dafny

Notificator is a browser user script for Phabricator. It polls the
notification panel, raises a desktop notification for each unread item that is
new or due again, and lets only one of the open tabs do this. This project
models the decision logic of `Notificator.user.js` as pure functions and proves
its properties:

- **Liveness** (`liveness.dfy`): `heartbeat()`. The shared `notificator-running`
  object maps each tab's start time to its last heartbeat. It is modelled as a
  sequence of `Entry(key, hb)` in property order, so the iteration order of
  `for (let ts in running)` and its `break` are explicit. A heartbeat is stale
  when `hb < now - 2*heartbeatDelay`. Stale entries are deleted as the loop meets
  them. The first live entry of an earlier tab sets `pause` to 1 and stops the
  loop. The tab's own entry is then set to `now`.
- **Feed** (`feed.dfy`): cutting the response text at the first `{` before
  `JSON.parse`. This includes the `substring(-1)` case, which keeps the whole text.
- **Dedup** (`dedup.dfy`): the reconcile callback of `main()`. It folds the batch
  of records into the `notificator-shown` map (task → renotify time and
  acknowledged metas), prunes tasks without an unread record, and reverses the
  raised records into delivery order.
- **PollLoop** (`poll.dfy`): one run of `main()`. It covers the `pause` gate, the
  status check, the parse failure, an unreadable store, and the reconcile step.
- **Common** (`common.dfy`): `Option`, the three possible results of reading a
  store key (`Absent`, `Malformed`, `Present`), `indexOf`, `reverse` and a
  subsequence predicate.

Timestamps are unbounded integers. The script's values are millisecond times
around 1.7e12, which JavaScript numbers hold exactly. Start-time keys are above
2^32, so JavaScript keeps the properties in insertion order rather than
numeric-key order, which is the order the sequence model uses. In line 40,
`ts >= timestart` compares a string key with a number. JavaScript converts the
key to a number, so the model compares integers.

Behaviour worth knowing, all of it stated by the model as the script does it:

- A malformed store is not reset to empty. `JSON.parse` throws. In `heartbeat()`
  this happens after `pause` was reset to 0 and before the write, so a tab that
  is already running acts as leader and the store stays corrupt. In `main()`
  the run ends without writing or raising anything.
- A tab that starts while `notificator-running` is not valid JSON throws in its
  first `heartbeat()` (line 190), inside the permission callback, before the
  two `setInterval` calls of lines 191-192. It never heartbeats or polls. No tab
  repairs the value, so once the tabs already running are closed every new tab
  stays silent. The startup callback is not part of the model; `Liveness.Tick`
  gives the throwing heartbeat's outcome.
- The script prunes every task that has no *unread* record in the batch. A task
  seen only on read records is pruned too.
- The script does not count the earlier tabs. It stops at the first one, so
  `pause` is 0 or 1.
- A follower breaks out of the sweep, so stale entries after the break point
  stay in the store until a tab sweeps the whole object.
- Reconciling twice with the same batch at the same `now` is not always quiet.
  A reached cooldown advances by one delay from the old threshold, not from
  `now`, so a task overdue by a full delay or more is raised again on the next
  run (`Dedup.OverdueTaskRealertedTwice`).

## Model

| member | source | states |
|---|---|---|
| `Liveness.Tick` | Notificator.user.js:28-51 | A malformed store is the only case in which nothing is written; `pause` ends at 0 or 1; whenever the object is written, it holds this tab's entry at `now` |
| `Liveness.SweepEntries` | Notificator.user.js:35-47 | The sweep sets `pause` to 1 exactly when some live entry has a key below `timestart`, and never above 1 |
| `Liveness.Put` | Notificator.user.js:49 | `running[timestart] = now` makes the key read back as `now` and leaves every other key's value as it was |
| `Liveness.Lookup` | Notificator.user.js:36 | Reading a key yields nothing exactly when the key is not in the object |
| `Liveness.KeepLive` | Notificator.user.js:37-38 | Reference definition: an entry is kept exactly when it is in the input and not stale |
| `Liveness.FirstEarlier` | Notificator.user.js:40-45 | Reference definition: the break point is the first live entry of an earlier tab, or the end when there is none |
| `Liveness.SweepShape` | Notificator.user.js:35-47 | The swept object equals the live entries before the break point followed by every entry from the break point on, unchanged; `pause` is 1 exactly when a break point exists |
| `Liveness.SweptPrefix` | Notificator.user.js:35-47 | The entries left by the sweep are the live entries before the break point followed by the untouched rest |
| `Liveness.SweepKeys` | Notificator.user.js:35-47 | Sweeping introduces no new key and keeps keys distinct |
| `Liveness.PutKeys` | Notificator.user.js:49 | Writing the own entry adds exactly its key and keeps keys distinct |
| `Liveness.SweepKeepsLive` | Notificator.user.js:37-38 | No live entry is deleted, and every kept entry was in the input |
| `Liveness.TickKeepsLive` | Notificator.user.js:35-49 | After a heartbeat the own entry reads `now`, every live entry of another tab keeps its heartbeat, nothing new appears besides the own entry, and keys stay distinct |
| `Liveness.TickPause` | Notificator.user.js:35-46 | `pause` is 0 or 1, and 1 exactly when the decoded object holds a live entry with a key below `timestart` |
| `Liveness.CompleteSweep` | Notificator.user.js:35-49 | With `pause` 0 the loop ran to completion: the written object is the live entries plus the own entry at `now`; it has no key besides the old ones and `timestart`, and no key twice when the input had none |
| `Liveness.BrokenSweep` | Notificator.user.js:40-49 | With `pause` 1 the entries from the break point on are written back unchanged, stale or not, apart from this tab's own entry, which is set to `now` wherever it is |
| `Liveness.AtMostOneLeader` | Notificator.user.js:40-45 | For one store snapshot, two different tabs that both have live entries cannot both have `pause` 0 |
| `Liveness.EarliestLeads` | Notificator.user.js:40-45 | The tab whose start time is at or below every live key ends with `pause` 0 |
| `Liveness.MalformedStoreLeads` | Notificator.user.js:31-33 | A running value that is not valid JSON yields `pause` 0 and no write |
| `Common.IndexOf` | Notificator.user.js:119 | `indexOf` gives -1 exactly when the element is absent, and otherwise the position of its first occurrence |
| `Common.Reverse` | Notificator.user.js:170 | The reversed list has the same length, and element i is the input's element at length-1-i |
| `Feed.Substring` | Notificator.user.js:120 | `substring(start)` is a suffix of the text; a negative start keeps the whole text; a start within the text drops exactly `start` characters |
| `Feed.StripToBrace` | Notificator.user.js:119-120 | Without a `{` the text is kept whole; with one, the result starts with `{`; the dropped prefix contains no `{` and the text is that prefix followed by the result |
| `Feed.StripToBraceDropsPreamble` | Notificator.user.js:119-120 | A preamble free of `{` followed by `{` and a body is cut back to exactly `{` and the body |
| `Feed.StripToBraceIdempotent` | Notificator.user.js:119-120 | Cutting twice gives the same text as cutting once |
| `Dedup.TaskOf` | Notificator.user.js:139 | An href without `/` is its own task; otherwise the task is one character shorter |
| `Dedup.TaskOfDropsFirstSlash` | Notificator.user.js:139 | For a prefix without `/`, the task of `prefix + "/" + rest` is `prefix + rest`: only the first slash is removed |
| `Dedup.Unread` | Notificator.user.js:137 | A record is in the unread list exactly when it is an unread record of the batch |
| `Dedup.UnreadTasks` | Notificator.user.js:135-140 | The task set contains the task of every unread record, and nothing else |
| `Dedup.Consider` | Notificator.user.js:142-159 | Only the record's own task changes. A new task is raised with renotify `now + delay` and metas `{meta}`. A known task is raised exactly when its meta is new or `now >= renotify`. Reaching the cooldown adds exactly one delay to the old threshold. The meta is acknowledged afterwards. An acknowledged meta before the cooldown is not raised and leaves the map unchanged |
| `Dedup.Scan` | Notificator.user.js:136-161 | The `forEach` fold: at most one alert per entry of `actualTasks`, and at most one entry per record |
| `Dedup.ScanTasks` | Notificator.user.js:135-161 | The fold adds exactly the tasks of the unread records, lists each in `actualTasks`, and leaves every other task unchanged |
| `Dedup.ScanAcknowledges` | Notificator.user.js:142-159 | After the fold, every unread record's meta is in its task's notifications |
| `Dedup.ScanAlertsInOrder` | Notificator.user.js:137-159 | The raised records form a subsequence of the unread records, in document order |
| `Dedup.Prune` | Notificator.user.js:163-167 | A task survives exactly when it is in the map and in `actualTasks`, and it keeps its state |
| `Dedup.Reconcile` | Notificator.user.js:124-171 | The surviving task set equals the tasks of the unread records. The alert list is exactly the reverse of the in-order list of unread records the fold decided to raise, one entry per such position; it is therefore a reversed subsequence of the unread records, and every alert is an unread record of the batch |
| `Dedup.ReconcileParts` | Notificator.user.js:136-170 | Pruning leaves exactly the unread tasks; the raised list is an in-order subsequence of the unread records and equals the records decided for raising; reversing keeps alerts unread records of the batch |
| `Dedup.ReconcileAcknowledges` | Notificator.user.js:143-157 | After reconciling, every unread record's meta is acknowledged for its task |
| `Dedup.ScanIgnoresRead` | Notificator.user.js:136-137 | Folding the batch gives the same result as folding only its unread records |
| `Dedup.ReconcileIgnoresRead` | Notificator.user.js:137 | Read records never influence the outcome |
| `Dedup.ScanAlertsGrow` | Notificator.user.js:156-159 | A record raised while folding a prefix of the batch stays raised |
| `Dedup.DecidedAlerted` | Notificator.user.js:142-170 | An unread record that the fold decides to raise, in the state left by the records before it, is delivered |
| `Dedup.ScanAlertedExact` | Notificator.user.js:136-161 | The fold over the first `n` records raises exactly the records decided for raising at positions below `n`, in document order, once per position |
| `Dedup.DecidedUpToMembers` | Notificator.user.js:136-161 | Every record in the decided list comes from a position at which it was decided for raising |
| `Dedup.ScanAlertedDecided` | Notificator.user.js:136-161 | Every record the fold raises is, at some position, an unread record that the fold decided to raise there |
| `Dedup.AlertedOnlyIfDecided` | Notificator.user.js:136-170 | Conversely, every delivered record is, at some position of the batch, an unread record that the fold decided to raise |
| `Dedup.ScanStep` | Notificator.user.js:136-161 | Appending one record to the batch is one more step of the fold: `Consider` for an unread record, nothing for a read one |
| `Dedup.ScanSplit` | Notificator.user.js:136-161 | Folding the whole batch gives the same map as folding a prefix and then folding the rest from the resulting map |
| `Dedup.ScanFrame` | Notificator.user.js:136-161 | A known task that no unread record of the batch names keeps its state through the fold |
| `Dedup.KnownTaskAlerted` | Notificator.user.js:142-170 | A known task met for the first time at any position is delivered when its meta is new or its cooldown is reached; right after that record its renotify is the old threshold plus one delay if the cooldown was reached (else unchanged) and the meta is added; with no later record of the task, that state is written back |
| `Dedup.KnownTaskDecision` | Notificator.user.js:142-161 | For a known task not met earlier in the batch, the fold decides to raise record `i` exactly when its meta is new or `now >= renotify`, and the task's state right after it is the advanced cooldown with the meta added |
| `Dedup.KnownTaskKept` | Notificator.user.js:136-167 | When no later unread record names a record's task, the task survives the prune with the state it had right after that record |
| `Dedup.FirstSightAlerted` | Notificator.user.js:151-158 | An unread record whose task is unknown and not met earlier in the batch is delivered |
| `Dedup.FirstSightStep` | Notificator.user.js:151-158 | Right after the first record of a task not known before, the task's state is renotify `now + delay` with only that record's meta |
| `Dedup.FirstSightKept` | Notificator.user.js:151-167 | A task not known before and named by exactly one unread record of the batch is written back as renotify `now + delay` with only that record's meta |
| `Dedup.ScanQuiet` | Notificator.user.js:143-146 | If every unread meta is acknowledged and no cooldown is reached, the fold changes nothing and raises nothing |
| `Dedup.ReconcileQuiet` | Notificator.user.js:143-167 | In that case nothing is delivered and every surviving task keeps its state |
| `Dedup.ReconcileTwiceQuiet` | Notificator.user.js:136-170 | If every renotify time lies after `now` after one reconcile, a second reconcile with the same batch at the same `now` delivers nothing and changes nothing |
| `Dedup.OverdueTaskRealertedTwice` | Notificator.user.js:147-157 | With a delay of 1800000, a task at renotify 0 reconciled at 3600000 is raised and moves to 1800000; reconciled again at the same time it is raised again and moves to 3600000 |
| `Dedup.ScanSingle` | Notificator.user.js:136-161 | A one-record batch folds to that record's single decision |
| `Dedup.DueTaskRealerted` | Notificator.user.js:147-157 | For a one-record batch `[rec]`: a known task whose cooldown is reached is delivered again, its renotify becomes the old threshold plus one delay and the meta is added, and that is the whole outcome (`Dedup.KnownTaskAlerted` covers any position) |
| `Dedup.PrunedTaskIsNewAgain` | Notificator.user.js:151-167 | A task without an unread record is dropped, and when it returns it is delivered again as new |
| `Dedup.ExampleRepeated` | Notificator.user.js:142-170 | The same unread record twice in one batch is delivered once: the first copy acknowledges the meta before the second is considered |
| `Dedup.ExampleTask` | Notificator.user.js:139 | The link `/T1` names task `T1` |
| `Dedup.ExampleFirstSight` | Notificator.user.js:151-158 | A first reconcile at 0 raises the record and stores renotify 1800000 with metas `{m1}` |
| `Dedup.ExampleQuiet` | Notificator.user.js:143-146 | At 1000 the same batch raises nothing and keeps the state |
| `Dedup.ExampleDue` | Notificator.user.js:147-157 | At 1800000 the same batch raises the record again and moves renotify to 3600000 |
| `Dedup.ExampleTimeline` | Notificator.user.js:143-167 | With a delay of 1800000: raised at 0; quiet at 1000; raised again at 1800000 with renotify 3600000; forgotten when the batch is empty |
| `PollLoop.MainCycle` | Notificator.user.js:93-131 | A run is skipped exactly when `pause > 0`. When not paused, it aborts with no write exactly on a non-200 status, a body that does not parse from its first `{`, or a malformed store |
| `PollLoop.DeliveredRun` | Notificator.user.js:119-171 | A delivering run parsed its body, writes back exactly the tasks of the batch's unread records and delivers only unread records of the batch |
| `PollLoop.AbsentShownIsEmpty` | Notificator.user.js:127-131 | A missing `notificator-shown` key behaves as an empty object |
| `PollLoop.FollowerSkipsCycle` | Notificator.user.js:94-97 | A tab whose heartbeat met a live earlier tab skips its next run |
| `PollLoop.LeaderPolls` | Notificator.user.js:94-97 | The tab with the earliest live start time is not paused and, given a good response and store, delivers |

## Left out

- HTML parsing and record extraction (`htmlToElement`, `htmlToElements`, `elem.matches`, `childNodes[2]`, `dataset.meta`): the batch arrives as extracted `Record`s. `JSON.parse` of the response and the extraction are the `extract` parameter of `PollLoop.MainCycle`.
- `XMLHttpRequest` and promise plumbing: the finished request is an input `Response(status, text)`. A network error finishes with status 0, which the non-200 branch covers. A request that never completes is not modelled.
- `JSON.parse` / `JSON.stringify` of `localStorage`: stores are decoded values. A parse failure is the `Malformed` case, with the code's behaviour.
- The Notification API, the permission request and `showNotification`: these are the browser sink. The model ends with the ordered list handed to it. A sink failure part-way through delivery is not modelled.
- `setInterval` timers (`heartbeatDelay` 5000 ms, `mainDelay` 15000 ms) and races between tabs on `localStorage`: the model covers single ticks and single runs. The claim that exactly one tab leads over time depends on timing and is not modelled. `Liveness.AtMostOneLeader` covers one snapshot.
- The `displayedMetas.length >= 50` warning: it is dead code, because the set is never filled and has no `length`.
- Logging through `console`.
- Property names inherited from `Object.prototype`: `task in shown` also matches names such as `constructor`. The model assumes task and meta names are not such names.
- Non-numeric keys or heartbeat values in `notificator-running` are not modelled. Keys and heartbeats are integers. A running value that is valid JSON but not an object of numbers (for example the string `"ab"`) is outside the model; the script would iterate its characters and can leave every tab paused.
- UTF-16 code units: positions in `indexOf` and `substring` count characters of the string, not UTF-16 code units. Both calls count in the same unit and only the cut text is used afterwards, so the cut still falls just before the first `{`.
- `Dedup.Scan`: its own contract only bounds the lengths of its lists. The key set, the acknowledged metas and the exact alert list are stated by `Dedup.ScanTasks`, `Dedup.ScanAcknowledges` and `Dedup.ScanAlertedExact`, kept apart so that proofs which unfold the fold stay small.
- `Dedup.Reconcile`: its contract does not state the per-task states (renotify and acknowledged metas). `Dedup.Consider` states them for each record in the state it meets. For whole reconciles: `Dedup.ReconcileAcknowledges` gives a lower bound on the metas of every task; `Dedup.KnownTaskAlerted` gives the exact state of a known task named by exactly one unread record whose meta is new or whose cooldown is reached; `Dedup.FirstSightKept` gives it for a new task named by exactly one unread record; `Dedup.ReconcileQuiet` gives it when nothing is new and no cooldown is reached; `Dedup.DueTaskRealerted` and `Dedup.ExampleTimeline` give it for one-record batches. A task named by several unread records is covered only step by step, through `Dedup.Consider`, `Dedup.ScanStep` and `Dedup.ScanSplit`.

=== FILE: common.dfy ===
/** Small shared vocabulary: optional values, what a read of the browser's
    local storage can yield, and the few sequence operations the script
    relies on (`indexOf`, `reverse`). */
module Common {

  /** A value that may be missing. */
  datatype Option<+T> = None | Some(value: T)

  /** The result of reading one key of `localStorage` and decoding it with
      `JSON.parse`: the key is missing, its text is not valid JSON (the parse
      throws), or it decodes to a value. */
  datatype Stored<+T> = Absent | Malformed | Present(value: T)

  /** `Array.prototype.indexOf` / `String.prototype.indexOf`: the position of
      the first occurrence of `x`, or -1 when there is none. */
  function IndexOf<T(==)>(s: seq<T>, x: T): (i: int)
    ensures -1 <= i < |s|
    ensures i == -1 <==> x !in s
    ensures 0 <= i ==> s[i] == x && x !in s[..i]
  {
    if s == [] then -1
    else if s[0] == x then 0
    else
      var j := IndexOf(s[1..], x);
      if j == -1 then -1
      else
        assert s[..j + 1] == [s[0]] + s[1..][..j];
        j + 1
  }

  /** `Array.prototype.reverse`, as a pure function. */
  function Reverse<T>(s: seq<T>): (r: seq<T>)
    ensures |r| == |s|
    ensures forall i :: 0 <= i < |s| ==> r[i] == s[|s| - 1 - i]
  {
    if s == [] then [] else Reverse(s[1..]) + [s[0]]
  }

  lemma ReverseReverse<T>(s: seq<T>)
    ensures Reverse(Reverse(s)) == s
  {
  }

  lemma ReverseSameElements<T>(s: seq<T>, x: T)
    ensures x in Reverse(s) <==> x in s
  {
    var r := Reverse(s);
    if x in s {
      var i :| 0 <= i < |s| && s[i] == x;
      assert r[|s| - 1 - i] == x;
    }
  }

  /** `a` can be obtained from `b` by deleting elements, keeping the order of
      the rest. Matched greedily from the end, which loses no solutions. */
  predicate IsSubsequence<T(==)>(a: seq<T>, b: seq<T>)
    decreases |b|
  {
    if a == [] then true
    else if b == [] then false
    else if a[|a| - 1] == b[|b| - 1] then IsSubsequence(a[..|a| - 1], b[..|b| - 1])
    else IsSubsequence(a, b[..|b| - 1])
  }

  lemma {:induction false} SubsequenceElements<T>(a: seq<T>, b: seq<T>)
    requires IsSubsequence(a, b)
    ensures forall x :: x in a ==> x in b
    decreases |b|
  {
    if a == [] {
    } else if a[|a| - 1] == b[|b| - 1] {
      SubsequenceElements(a[..|a| - 1], b[..|b| - 1]);
      forall x | x in a ensures x in b {
        if x != a[|a| - 1] {
          assert a == a[..|a| - 1] + [a[|a| - 1]];
          assert x in b[..|b| - 1];
        }
      }
    } else {
      SubsequenceElements(a, b[..|b| - 1]);
      forall x | x in a ensures x in b {
        assert x in b[..|b| - 1];
      }
    }
  }

  lemma {:induction false} SubsequenceDropLast<T>(a: seq<T>, b: seq<T>)
    requires |a| > 0 && IsSubsequence(a, b)
    ensures IsSubsequence(a[..|a| - 1], b)
    decreases |b|, 0
  {
    var a' := a[..|a| - 1];
    if a[|a| - 1] == b[|b| - 1] {
      SubsequenceAppend(a', b[..|b| - 1], b[|b| - 1]);
      assert b[..|b| - 1] + [b[|b| - 1]] == b;
    } else {
      SubsequenceDropLast(a, b[..|b| - 1]);
      SubsequenceAppend(a', b[..|b| - 1], b[|b| - 1]);
      assert b[..|b| - 1] + [b[|b| - 1]] == b;
    }
  }

  /** Appending to the larger sequence keeps a subsequence a subsequence. */
  lemma {:induction false} SubsequenceAppend<T>(a: seq<T>, b: seq<T>, x: T)
    requires IsSubsequence(a, b)
    ensures IsSubsequence(a, b + [x])
    decreases |b|, 1
  {
    var b' := b + [x];
    assert b'[..|b'| - 1] == b;
    if a != [] && a[|a| - 1] == x {
      SubsequenceDropLast(a, b);
    }
  }
}

=== FILE: dedup.dfy ===
/** The dedup / re-notification step of `main()` in Notificator.user.js: the
    second `.then` callback, which folds the fetched notifications into the
    `notificator-shown` object, prunes tasks that are no longer unread
    upstream and returns the notifications to raise, oldest first. */
module Dedup {
  import opened Common

  /** `taskRenotifyDelay`, in milliseconds. */
  const TaskRenotifyDelay := 1000 * 60 * 30

  /** One notification of the panel, already extracted from its markup:
      whether it carries the unread class, the `href` of its task link and
      its `data-meta` attribute. */
  datatype Record = Record(unread: bool, href: string, meta: string)

  /** What is remembered of one task: when it may be raised again although
      nothing new arrived, and the metas already raised. */
  datatype TaskState = TaskState(renotify: int, notifications: set<string>)

  /** The decoded `notificator-shown` object: task -> state. */
  type Shown = map<string, TaskState>

  /** `href.replace('/', '')`: a string pattern replaces only its first
      occurrence, so only the first slash is removed. */
  function TaskOf(href: string): (task: string)
    ensures '/' !in href ==> task == href
    ensures '/' in href ==> |task| + 1 == |href|
  {
    var i := IndexOf(href, '/');
    if i < 0 then href else href[..i] + href[i + 1..]
  }

  /** Inverse view of `TaskOf`: putting the first slash back gives the link. */
  lemma TaskOfDropsFirstSlash(prefix: string, rest: string)
    requires '/' !in prefix
    ensures TaskOf(prefix + "/" + rest) == prefix + rest
  {
    var href := prefix + "/" + rest;
    assert href[|prefix|] == '/';
    assert href[..|prefix|] == prefix;
    assert href[|prefix| + 1..] == rest;
  }

  /** The unread records of a batch, in order (the `elem.matches` filter). */
  function Unread(batch: seq<Record>): (u: seq<Record>)
    ensures forall r :: r in u <==> r in batch && r.unread
  {
    if batch == [] then []
    else
      var last := batch[|batch| - 1];
      assert batch == batch[..|batch| - 1] + [last];
      Unread(batch[..|batch| - 1]) + (if last.unread then [last] else [])
  }

  /** The tasks of the unread records of a batch. */
  function UnreadTasks(batch: seq<Record>): (ts: set<string>)
    ensures forall r :: r in batch && r.unread ==> TaskOf(r.href) in ts
    ensures forall t :: t in ts ==> exists r :: r in batch && r.unread && TaskOf(r.href) == t
  {
    if batch == [] then {}
    else
      var last := batch[|batch| - 1];
      assert batch == batch[..|batch| - 1] + [last];
      UnreadTasks(batch[..|batch| - 1]) + (if last.unread then {TaskOf(last.href)} else {})
  }

  /** Handling one unread record against the current state: whether it is
      raised, and the state afterwards. */
  datatype Visit = Visit(shown: Shown, show: bool)

  /** Lines 142-159 for one unread record. */
  function Consider(shown: Shown, task: string, meta: string, now: int, delay: int): (v: Visit)
    // Only the record's own task is touched, and it is present afterwards.
    ensures v.shown.Keys == shown.Keys + {task}
    ensures forall t :: t in shown && t != task ==> v.shown[t] == shown[t]
    // A task seen for the first time is raised and starts its cooldown now.
    ensures task !in shown ==> v.show && v.shown[task] == TaskState(now + delay, {meta})
    // A known task is raised when the meta is new or the cooldown is reached.
    ensures task in shown ==>
      (v.show <==> meta !in shown[task].notifications || now >= shown[task].renotify)
    // Reaching the cooldown advances it by exactly one delay, from the old
    // threshold and not from `now`; otherwise it stays.
    ensures task in shown ==>
      v.shown[task].renotify ==
        (if now >= shown[task].renotify then shown[task].renotify + delay else shown[task].renotify)
    // Either way, the meta is acknowledged afterwards.
    ensures task in shown ==> v.shown[task].notifications == shown[task].notifications + {meta}
    // An acknowledged meta before the cooldown changes nothing.
    ensures task in shown && meta in shown[task].notifications && now < shown[task].renotify ==>
      !v.show && v.shown == shown
  {
    if task in shown then
      var e := shown[task];
      var show := meta !in e.notifications;
      var overdue := now >= e.renotify;
      var renotify := if overdue then e.renotify + delay else e.renotify;
      var show := show || overdue;
      var notifications := if show then e.notifications + {meta} else e.notifications;
      Visit(shown[task := TaskState(renotify, notifications)], show)
    else
      Visit(shown[task := TaskState(now + delay, {meta})], true)
  }

  /** What the `forEach` over the batch leaves behind: the updated state,
      the raised records in document order (`unread`), and the task of every
      unread record (`actualTasks`). */
  datatype Pass = Pass(shown: Shown, alerted: seq<Record>, actual: seq<string>)

  /** The `forEach` of lines 136-161, as a fold over the batch in order. */
  function Scan(shown: Shown, batch: seq<Record>, now: int, delay: int): (p: Pass)
    // Each unread record adds one entry to `actualTasks` and at most one
    // alert; read records add neither (`ScanTasks` gives the key set).
    ensures |p.alerted| <= |p.actual| <= |batch|
    decreases |batch|
  {
    if batch == [] then Pass(shown, [], [])
    else
      var p := Scan(shown, batch[..|batch| - 1], now, delay);
      var rec := batch[|batch| - 1];
      if !rec.unread then p
      else
        var task := TaskOf(rec.href);
        var v := Consider(p.shown, task, rec.meta, now, delay);
        Pass(v.shown, if v.show then p.alerted + [rec] else p.alerted, p.actual + [task])
  }

  /** The fold adds exactly the tasks of the unread records, records each of
      them in `actualTasks`, and leaves every other task alone. */
  lemma {:induction false} ScanTasks(shown: Shown, batch: seq<Record>, now: int, delay: int)
    ensures Scan(shown, batch, now, delay).shown.Keys == shown.Keys + UnreadTasks(batch)
    ensures forall t :: t in Scan(shown, batch, now, delay).actual <==> t in UnreadTasks(batch)
    ensures forall t :: t in shown && t !in UnreadTasks(batch) ==>
      Scan(shown, batch, now, delay).shown[t] == shown[t]
  {
    if batch != [] {
      ScanTasks(shown, batch[..|batch| - 1], now, delay);
    }
  }

  /** After the fold every unread record's meta is acknowledged for its task. */
  lemma {:induction false} ScanAcknowledges(shown: Shown, batch: seq<Record>, now: int, delay: int)
    ensures forall r :: r in batch && r.unread ==>
      TaskOf(r.href) in Scan(shown, batch, now, delay).shown &&
      r.meta in Scan(shown, batch, now, delay).shown[TaskOf(r.href)].notifications
  {
    if batch != [] {
      var init := batch[..|batch| - 1];
      var rec := batch[|batch| - 1];
      assert batch == init + [rec];
      ScanAcknowledges(shown, init, now, delay);
      var p := Scan(shown, init, now, delay);
      if rec.unread {
        var t := TaskOf(rec.href);
        var v := Consider(p.shown, t, rec.meta, now, delay);
        var q := Scan(shown, batch, now, delay);
        assert q.shown == v.shown;
        forall r | r in batch && r.unread
          ensures TaskOf(r.href) in q.shown && r.meta in q.shown[TaskOf(r.href)].notifications
        {
          if r != rec {
            assert r in init;
            var tr := TaskOf(r.href);
            assert tr in p.shown && r.meta in p.shown[tr].notifications;
            if tr != t {
              assert q.shown[tr] == p.shown[tr];
            }
          }
        }
      } else {
        assert Scan(shown, batch, now, delay) == p;
        forall r | r in batch && r.unread
          ensures TaskOf(r.href) in p.shown && r.meta in p.shown[TaskOf(r.href)].notifications
        {
          assert r in init;
        }
      }
    }
  }

  /** The raised records are unread records of the batch, in document order. */
  lemma {:induction false} ScanAlertsInOrder(shown: Shown, batch: seq<Record>, now: int, delay: int)
    ensures IsSubsequence(Scan(shown, batch, now, delay).alerted, Unread(batch))
  {
    if batch != [] {
      var init := batch[..|batch| - 1];
      var rec := batch[|batch| - 1];
      ScanAlertsInOrder(shown, init, now, delay);
      var p := Scan(shown, init, now, delay);
      var a := p.alerted;
      var u := Unread(init);
      if rec.unread {
        var v := Consider(p.shown, TaskOf(rec.href), rec.meta, now, delay);
        assert Unread(batch) == u + [rec];
        SubsequenceAppend(a, u, rec);
        if v.show {
          assert Scan(shown, batch, now, delay).alerted == a + [rec];
          assert (a + [rec])[..|a|] == a;
          assert (u + [rec])[..|u|] == u;
        } else {
          assert Scan(shown, batch, now, delay).alerted == a;
        }
      } else {
        assert Unread(batch) == u + [] == u;
        assert Scan(shown, batch, now, delay) == p;
      }
    }
  }

  /** Lines 163-167: delete every task for which
      `actualTasks.indexOf(task) === -1`. */
  function Prune(shown: Shown, actual: seq<string>): (r: Shown)
    ensures forall t :: t in r <==> t in shown && t in actual
    ensures forall t :: t in r ==> r[t] == shown[t]
  {
    map t | t in shown && IndexOf(actual, t) != -1 :: shown[t]
  }

  /** The result of the reconcile step: the object written back to
      `notificator-shown` and the records to raise, in delivery order. */
  datatype Outcome = Outcome(shown: Shown, alerts: seq<Record>)

  /** Lines 124-171: fold the batch, prune the tasks that are no longer
      unread, and reverse the raised records so that the oldest is delivered
      first. */
  function Reconcile(shown: Shown, batch: seq<Record>, now: int, delay: int): (o: Outcome)
    // Exactly the tasks of the unread records survive.
    ensures o.shown.Keys == UnreadTasks(batch)
    // Delivered, in reverse, are exactly the unread records the fold decided
    // to raise, one entry per such position.
    ensures Reverse(o.alerts) == DecidedUpTo(shown, batch, |batch|, now, delay)
    // Delivery order is the reverse of document order, and only unread
    // records of the batch are delivered.
    ensures IsSubsequence(Reverse(o.alerts), Unread(batch))
    ensures forall a :: a in o.alerts ==> a in batch && a.unread
  {
    var p := Scan(shown, batch, now, delay);
    ReconcileParts(shown, batch, now, delay);
    ReverseReverse(p.alerted);
    Outcome(Prune(p.shown, p.actual), Reverse(p.alerted))
  }

  lemma ReconcileParts(shown: Shown, batch: seq<Record>, now: int, delay: int)
    ensures var p := Scan(shown, batch, now, delay);
      && Prune(p.shown, p.actual).Keys == UnreadTasks(batch)
      && IsSubsequence(p.alerted, Unread(batch))
      && p.alerted == DecidedUpTo(shown, batch, |batch|, now, delay)
      && forall a :: a in Reverse(p.alerted) ==> a in batch && a.unread
  {
    var p := Scan(shown, batch, now, delay);
    ScanTasks(shown, batch, now, delay);
    ScanAlertsInOrder(shown, batch, now, delay);
    ScanAlertedExact(shown, batch, |batch|, now, delay);
    assert batch[..|batch|] == batch;
    SubsequenceElements(p.alerted, Unread(batch));
    forall a | a in Reverse(p.alerted) ensures a in batch && a.unread {
      ReverseSameElements(p.alerted, a);
    }
  }

  /** After reconciling, every unread record's meta is acknowledged for its
      task. */
  lemma ReconcileAcknowledges(shown: Shown, batch: seq<Record>, now: int, delay: int)
    ensures var o := Reconcile(shown, batch, now, delay);
      forall r :: r in batch && r.unread ==> r.meta in o.shown[TaskOf(r.href)].notifications
  {
    var p := Scan(shown, batch, now, delay);
    var o := Reconcile(shown, batch, now, delay);
    ScanTasks(shown, batch, now, delay);
    ScanAcknowledges(shown, batch, now, delay);
    forall r | r in batch && r.unread
      ensures r.meta in o.shown[TaskOf(r.href)].notifications
    {
      var t := TaskOf(r.href);
      assert t in p.actual;
      assert o.shown[t] == p.shown[t];
    }
  }

  // ---------------------------------------------------------------------
  // Properties relating several records or several reconciles
  // ---------------------------------------------------------------------

  /** Read records play no part: reconciling the batch is the same as
      reconciling only its unread records. */
  lemma {:induction false} ScanIgnoresRead(shown: Shown, batch: seq<Record>, now: int, delay: int)
    ensures Scan(shown, batch, now, delay) == Scan(shown, Unread(batch), now, delay)
  {
    if batch != [] {
      var init := batch[..|batch| - 1];
      var rec := batch[|batch| - 1];
      ScanIgnoresRead(shown, init, now, delay);
      var u := Unread(batch);
      if rec.unread {
        assert u == Unread(init) + [rec];
        assert u[..|u| - 1] == Unread(init);
        assert u[|u| - 1] == rec;
        var p := Scan(shown, init, now, delay);
        assert Scan(shown, Unread(init), now, delay) == p;
        var v := Consider(p.shown, TaskOf(rec.href), rec.meta, now, delay);
        var q := Pass(v.shown, if v.show then p.alerted + [rec] else p.alerted, p.actual + [TaskOf(rec.href)]);
        assert Scan(shown, batch, now, delay) == q;
        assert Scan(shown, u, now, delay) == q;
      } else {
        assert u == Unread(init);
        assert Scan(shown, batch, now, delay) == Scan(shown, init, now, delay);
      }
    }
  }

  lemma ReconcileIgnoresRead(shown: Shown, batch: seq<Record>, now: int, delay: int)
    ensures Reconcile(shown, batch, now, delay) == Reconcile(shown, Unread(batch), now, delay)
  {
    ScanIgnoresRead(shown, batch, now, delay);
  }

  /** Records raised while folding a prefix of the batch stay raised. */
  lemma {:induction false} ScanAlertsGrow(shown: Shown, batch: seq<Record>, k: nat, now: int, delay: int)
    requires k <= |batch|
    ensures forall x :: x in Scan(shown, batch[..k], now, delay).alerted ==>
      x in Scan(shown, batch, now, delay).alerted
    decreases |batch|
  {
    if k < |batch| {
      var init := batch[..|batch| - 1];
      assert init[..k] == batch[..k];
      ScanAlertsGrow(shown, init, k, now, delay);
    } else {
      assert batch[..k] == batch;
    }
  }

  /** An unread record whose task is not known, and not met earlier in the
      batch, is raised. */
  lemma FirstSightAlerted(shown: Shown, batch: seq<Record>, i: nat, now: int, delay: int)
    requires i < |batch| && batch[i].unread
    requires TaskOf(batch[i].href) !in shown
    requires forall j :: 0 <= j < i && batch[j].unread ==> TaskOf(batch[j].href) != TaskOf(batch[i].href)
    ensures batch[i] in Reconcile(shown, batch, now, delay).alerts
  {
    var task := TaskOf(batch[i].href);
    var before := batch[..i];
    ScanTasks(shown, before, now, delay);
    assert task !in UnreadTasks(before);
    assert task !in Scan(shown, before, now, delay).shown;
    assert DecidedAt(shown, batch, i, now, delay);
    DecidedAlerted(shown, batch, i, now, delay);
  }

  /** Right after the first record of a task not known before, the task
      starts its cooldown at `now + delay` with that record's meta. */
  lemma FirstSightStep(shown: Shown, batch: seq<Record>, i: nat, now: int, delay: int)
    requires i < |batch| && batch[i].unread
    requires TaskOf(batch[i].href) !in shown
    requires forall j :: 0 <= j < i && batch[j].unread ==> TaskOf(batch[j].href) != TaskOf(batch[i].href)
    ensures Scan(shown, batch[..i + 1], now, delay).shown[TaskOf(batch[i].href)] ==
      TaskState(now + delay, {batch[i].meta})
  {
    var task := TaskOf(batch[i].href);
    var before := batch[..i];
    ScanTasks(shown, before, now, delay);
    assert task !in UnreadTasks(before);
    assert batch[..i + 1][..i] == before;
    assert batch[..i + 1][i] == batch[i];
  }

  /** A task first seen in this batch and named by exactly one unread record
      is written back with cooldown `now + delay` and that record's meta. */
  lemma FirstSightKept(shown: Shown, batch: seq<Record>, i: nat, now: int, delay: int)
    requires i < |batch| && batch[i].unread
    requires TaskOf(batch[i].href) !in shown
    requires forall j :: 0 <= j < i && batch[j].unread ==> TaskOf(batch[j].href) != TaskOf(batch[i].href)
    requires forall j :: i < j < |batch| && batch[j].unread ==> TaskOf(batch[j].href) != TaskOf(batch[i].href)
    ensures TaskOf(batch[i].href) in Reconcile(shown, batch, now, delay).shown
    ensures Reconcile(shown, batch, now, delay).shown[TaskOf(batch[i].href)] ==
      TaskState(now + delay, {batch[i].meta})
  {
    FirstSightStep(shown, batch, i, now, delay);
    KnownTaskKept(shown, batch, i, now, delay);
  }

  /** Record `i` of the batch is unread and the fold, meeting it in the state
      left by the records before it, decides to raise it (lines 145-158). */
  predicate DecidedAt(shown: Shown, batch: seq<Record>, i: nat, now: int, delay: int)
  {
    && i < |batch| && batch[i].unread
    && Consider(Scan(shown, batch[..i], now, delay).shown, TaskOf(batch[i].href), batch[i].meta, now, delay).show
  }

  /** A record the fold decides to raise is delivered. */
  lemma DecidedAlerted(shown: Shown, batch: seq<Record>, i: nat, now: int, delay: int)
    requires DecidedAt(shown, batch, i, now, delay)
    ensures batch[i] in Reconcile(shown, batch, now, delay).alerts
  {
    assert batch[..i + 1][..i] == batch[..i];
    assert batch[i] in Scan(shown, batch[..i + 1], now, delay).alerted;
    ScanAlertsGrow(shown, batch, i + 1, now, delay);
    ReverseSameElements(Scan(shown, batch, now, delay).alerted, batch[i]);
  }

  lemma {:induction false} DecidedUpToMembers(shown: Shown, batch: seq<Record>, n: nat, now: int, delay: int)
    requires n <= |batch|
    ensures forall a :: a in DecidedUpTo(shown, batch, n, now, delay) ==>
      exists i: nat :: i < n && batch[i] == a && DecidedAt(shown, batch, i, now, delay)
  {
    if n > 0 {
      DecidedUpToMembers(shown, batch, n - 1, now, delay);
    }
  }

  lemma ScanAlertedDecided(shown: Shown, batch: seq<Record>, now: int, delay: int)
    ensures forall a :: a in Scan(shown, batch, now, delay).alerted ==>
      exists i: nat :: i < |batch| && batch[i] == a && DecidedAt(shown, batch, i, now, delay)
  {
    ScanAlertedExact(shown, batch, |batch|, now, delay);
    assert batch[..|batch|] == batch;
    DecidedUpToMembers(shown, batch, |batch|, now, delay);
  }

  /** Conversely, only records the fold decided to raise are delivered. */
  lemma AlertedOnlyIfDecided(shown: Shown, batch: seq<Record>, now: int, delay: int)
    ensures forall a :: a in Reconcile(shown, batch, now, delay).alerts ==>
      exists i: nat :: i < |batch| && batch[i] == a && DecidedAt(shown, batch, i, now, delay)
  {
    ScanAlertedDecided(shown, batch, now, delay);
    forall a | a in Reconcile(shown, batch, now, delay).alerts
      ensures a in Scan(shown, batch, now, delay).alerted
    {
      ReverseSameElements(Scan(shown, batch, now, delay).alerted, a);
    }
  }

  /** Reference definition of what the fold raises from the first `n`
      records: each record the fold decided to raise at its position, once
      per position, in document order. */
  function DecidedUpTo(shown: Shown, batch: seq<Record>, n: nat, now: int, delay: int): seq<Record>
    requires n <= |batch|
  {
    if n == 0 then []
    else
      DecidedUpTo(shown, batch, n - 1, now, delay) +
        (if DecidedAt(shown, batch, n - 1, now, delay) then [batch[n - 1]] else [])
  }

  /** The fold over a prefix raises exactly the records decided up to it. */
  lemma {:induction false} ScanAlertedExact(shown: Shown, batch: seq<Record>, n: nat, now: int, delay: int)
    requires n <= |batch|
    ensures Scan(shown, batch[..n], now, delay).alerted == DecidedUpTo(shown, batch, n, now, delay)
  {
    if n > 0 {
      ScanAlertedExact(shown, batch, n - 1, now, delay);
      assert batch[..n][..n - 1] == batch[..n - 1];
      assert batch[..n][n - 1] == batch[n - 1];
    }
  }

  /** One more record at the end of the batch is one more step of the fold. */
  lemma ScanStep(shown: Shown, init: seq<Record>, rec: Record, now: int, delay: int)
    ensures var p := Scan(shown, init, now, delay);
      Scan(shown, init + [rec], now, delay).shown ==
        if rec.unread then Consider(p.shown, TaskOf(rec.href), rec.meta, now, delay).shown else p.shown
  {
    assert (init + [rec])[..|init|] == init;
  }

  /** The fold can be cut anywhere: the state after the whole batch is the
      state after the rest, started from the state after the prefix. */
  lemma {:induction false} ScanSplit(shown: Shown, batch: seq<Record>, k: nat, now: int, delay: int)
    requires k <= |batch|
    ensures Scan(shown, batch, now, delay).shown ==
      Scan(Scan(shown, batch[..k], now, delay).shown, batch[k..], now, delay).shown
  {
    if k < |batch| {
      var n := |batch| - 1;
      var init := batch[..n];
      var rec := batch[n];
      var mid := Scan(shown, batch[..k], now, delay).shown;
      ScanSplit(shown, init, k, now, delay);
      assert init[..k] == batch[..k];
      assert batch == init + [rec];
      assert batch[k..] == init[k..] + [rec];
      ScanStep(shown, init, rec, now, delay);
      ScanStep(mid, init[k..], rec, now, delay);
    } else {
      assert batch[..k] == batch;
    }
  }

  /** A task no unread record of the batch names keeps its state. */
  lemma ScanFrame(shown: Shown, batch: seq<Record>, t: string, now: int, delay: int)
    requires t in shown
    requires forall j :: 0 <= j < |batch| && batch[j].unread ==> TaskOf(batch[j].href) != t
    ensures t in Scan(shown, batch, now, delay).shown
    ensures Scan(shown, batch, now, delay).shown[t] == shown[t]
  {
    ScanTasks(shown, batch, now, delay);
  }

  /** A known task met for the first time at position `i` is raised when its
      meta is new or its cooldown is reached. Right after the record its
      meta is acknowledged and its cooldown has advanced by one delay from
      the old threshold if it was reached; when no later unread record has
      the same task, that is the state written back. */
  lemma KnownTaskAlerted(shown: Shown, batch: seq<Record>, i: nat, now: int, delay: int)
    requires i < |batch| && batch[i].unread
    requires TaskOf(batch[i].href) in shown
    requires forall j :: 0 <= j < i && batch[j].unread ==> TaskOf(batch[j].href) != TaskOf(batch[i].href)
    requires batch[i].meta !in shown[TaskOf(batch[i].href)].notifications ||
      now >= shown[TaskOf(batch[i].href)].renotify
    ensures batch[i] in Reconcile(shown, batch, now, delay).alerts
    ensures var t := TaskOf(batch[i].href);
      var e := TaskState(if now >= shown[t].renotify then shown[t].renotify + delay else shown[t].renotify,
                         shown[t].notifications + {batch[i].meta});
      && Scan(shown, batch[..i + 1], now, delay).shown[t] == e
      && ((forall j :: i < j < |batch| && batch[j].unread ==> TaskOf(batch[j].href) != t) ==>
            Reconcile(shown, batch, now, delay).shown[t] == e)
  {
    var t := TaskOf(batch[i].href);
    KnownTaskDecision(shown, batch, i, now, delay);
    DecidedAlerted(shown, batch, i, now, delay);
    if forall j :: i < j < |batch| && batch[j].unread ==> TaskOf(batch[j].href) != t {
      KnownTaskKept(shown, batch, i, now, delay);
    }
  }

  /** The decision and the state right after record `i`, for a known task
      not met earlier in the batch. */
  lemma KnownTaskDecision(shown: Shown, batch: seq<Record>, i: nat, now: int, delay: int)
    requires i < |batch| && batch[i].unread
    requires TaskOf(batch[i].href) in shown
    requires forall j :: 0 <= j < i && batch[j].unread ==> TaskOf(batch[j].href) != TaskOf(batch[i].href)
    ensures var t := TaskOf(batch[i].href);
      && (DecidedAt(shown, batch, i, now, delay) <==>
            batch[i].meta !in shown[t].notifications || now >= shown[t].renotify)
      && Scan(shown, batch[..i + 1], now, delay).shown[t] ==
           TaskState(if now >= shown[t].renotify then shown[t].renotify + delay else shown[t].renotify,
                     shown[t].notifications + {batch[i].meta})
  {
    var t := TaskOf(batch[i].href);
    var before := batch[..i];
    ScanFrame(shown, before, t, now, delay);
    var p := Scan(shown, before, now, delay);
    var v := Consider(p.shown, t, batch[i].meta, now, delay);
    assert batch[..i + 1][..i] == before;
    assert Scan(shown, batch[..i + 1], now, delay).shown == v.shown;
  }

  /** The state of record `i`'s task right after it is what is written back
      when no later unread record names the task. */
  lemma KnownTaskKept(shown: Shown, batch: seq<Record>, i: nat, now: int, delay: int)
    requires i < |batch| && batch[i].unread
    requires forall j :: i < j < |batch| && batch[j].unread ==> TaskOf(batch[j].href) != TaskOf(batch[i].href)
    ensures var t := TaskOf(batch[i].href);
      && t in Reconcile(shown, batch, now, delay).shown
      && Reconcile(shown, batch, now, delay).shown[t] == Scan(shown, batch[..i + 1], now, delay).shown[t]
  {
    var t := TaskOf(batch[i].href);
    var mid := Scan(shown, batch[..i + 1], now, delay).shown;
    assert batch[..i + 1][..i] == batch[..i];
    assert batch[..i + 1][i] == batch[i];
    assert t in mid;
    var after := batch[i + 1..];
    forall j | 0 <= j < |after| && after[j].unread ensures TaskOf(after[j].href) != t {
      assert after[j] == batch[i + 1 + j];
    }
    ScanFrame(mid, after, t, now, delay);
    ScanSplit(shown, batch, i + 1, now, delay);
    ScanTasks(shown, batch, now, delay);
    assert batch[i] in batch;
    assert t in Scan(shown, batch, now, delay).actual;
  }

  /** When every unread record's meta is already acknowledged and no cooldown
      is reached, the fold changes nothing and raises nothing. */
  lemma {:induction false} ScanQuiet(shown: Shown, batch: seq<Record>, now: int, delay: int)
    requires forall r :: r in batch && r.unread ==>
      TaskOf(r.href) in shown &&
      r.meta in shown[TaskOf(r.href)].notifications &&
      now < shown[TaskOf(r.href)].renotify
    ensures Scan(shown, batch, now, delay).shown == shown
    ensures Scan(shown, batch, now, delay).alerted == []
  {
    if batch != [] {
      var init := batch[..|batch| - 1];
      assert forall r :: r in init ==> r in batch;
      ScanQuiet(shown, init, now, delay);
    }
  }

  /** The quiet case as a whole: nothing is raised and the surviving tasks
      keep their state. */
  lemma ReconcileQuiet(shown: Shown, batch: seq<Record>, now: int, delay: int)
    requires forall r :: r in batch && r.unread ==>
      TaskOf(r.href) in shown &&
      r.meta in shown[TaskOf(r.href)].notifications &&
      now < shown[TaskOf(r.href)].renotify
    ensures Reconcile(shown, batch, now, delay).alerts == []
    ensures forall t :: t in Reconcile(shown, batch, now, delay).shown ==>
      Reconcile(shown, batch, now, delay).shown[t] == shown[t]
  {
    ScanQuiet(shown, batch, now, delay);
  }

  /** Reconciling again with the same batch at the same time raises nothing
      and leaves the state as it is, provided every cooldown lies after `now`
      (always so for a positive delay unless a task was overdue by a full
      delay or more, see `OverdueTaskRealertedTwice`). */
  lemma ReconcileTwiceQuiet(shown: Shown, batch: seq<Record>, now: int, delay: int)
    requires forall t :: t in Reconcile(shown, batch, now, delay).shown ==>
      now < Reconcile(shown, batch, now, delay).shown[t].renotify
    ensures var o := Reconcile(shown, batch, now, delay);
      Reconcile(o.shown, batch, now, delay) == Outcome(o.shown, [])
  {
    var o := Reconcile(shown, batch, now, delay);
    ReconcileAcknowledges(shown, batch, now, delay);
    ReconcileQuiet(o.shown, batch, now, delay);
    var o2 := Reconcile(o.shown, batch, now, delay);
    assert o2.alerts == [];
    assert o2.shown.Keys == o.shown.Keys;
    assert o2.shown == o.shown;
  }

  /** Reconciling is not idempotent at the same `now`: a cooldown advances by
      one delay from the old threshold, so a task overdue by a full delay is
      still due on the second pass and is raised again. */
  lemma OverdueTaskRealertedTwice()
    ensures var rec := Record(true, "/T1", "m1");
      var o := Reconcile(map["T1" := TaskState(0, {"m1"})], [rec], 3600000, TaskRenotifyDelay);
      && o == Outcome(map["T1" := TaskState(1800000, {"m1"})], [rec])
      && Reconcile(o.shown, [rec], 3600000, TaskRenotifyDelay) ==
           Outcome(map["T1" := TaskState(3600000, {"m1"})], [rec])
  {
    var rec := Record(true, "/T1", "m1");
    ExampleTask();
    assert {"m1"} + {"m1"} == {"m1"};
    DueTaskRealerted(map["T1" := TaskState(0, {"m1"})], rec, 3600000, TaskRenotifyDelay);
    DueTaskRealerted(map["T1" := TaskState(1800000, {"m1"})], rec, 3600000, TaskRenotifyDelay);
  }

  lemma ScanSingle(shown: Shown, rec: Record, now: int, delay: int)
    requires rec.unread
    ensures var v := Consider(shown, TaskOf(rec.href), rec.meta, now, delay);
      Scan(shown, [rec], now, delay) ==
        Pass(v.shown, if v.show then [rec] else [], [TaskOf(rec.href)])
  {
    assert [rec][..0] == [];
  }

  /** A known task whose cooldown is reached is raised again, and its
      cooldown advances by exactly one delay from the old threshold. */
  lemma DueTaskRealerted(shown: Shown, rec: Record, now: int, delay: int)
    requires rec.unread
    requires TaskOf(rec.href) in shown && now >= shown[TaskOf(rec.href)].renotify
    ensures var t := TaskOf(rec.href);
      Reconcile(shown, [rec], now, delay) ==
        Outcome(map[t := TaskState(shown[t].renotify + delay, shown[t].notifications + {rec.meta})], [rec])
  {
    var t := TaskOf(rec.href);
    var e := TaskState(shown[t].renotify + delay, shown[t].notifications + {rec.meta});
    var v := Consider(shown, t, rec.meta, now, delay);
    assert v.shown[t] == e;
    ScanSingle(shown, rec, now, delay);
    var pruned := Prune(v.shown, [t]);
    assert pruned.Keys == {t};
    assert pruned == map[t := e];
  }

  /** A task that drops out of the unread records is forgotten, so when it
      comes back it is raised again as new, whatever was acknowledged. */
  lemma PrunedTaskIsNewAgain(shown: Shown, batch1: seq<Record>, batch2: seq<Record>, i: nat, now1: int, now2: int, delay: int)
    requires i < |batch2| && batch2[i].unread
    requires forall r :: r in batch1 && r.unread ==> TaskOf(r.href) != TaskOf(batch2[i].href)
    requires forall j :: 0 <= j < i && batch2[j].unread ==> TaskOf(batch2[j].href) != TaskOf(batch2[i].href)
    ensures TaskOf(batch2[i].href) !in Reconcile(shown, batch1, now1, delay).shown
    ensures batch2[i] in Reconcile(Reconcile(shown, batch1, now1, delay).shown, batch2, now2, delay).alerts
  {
    FirstSightAlerted(Reconcile(shown, batch1, now1, delay).shown, batch2, i, now2, delay);
  }

  /** A worked timeline for one unread record with the script's delay:
      raised at 0, quiet at 1000, raised again at 1800000 with the cooldown
      moved to 3600000, and forgotten once the batch is empty. */
  lemma ExampleTimeline()
    ensures var rec := Record(true, "/T1", "m1");
      var s1 := map["T1" := TaskState(1800000, {"m1"})];
      && Reconcile(map[], [rec], 0, TaskRenotifyDelay) == Outcome(s1, [rec])
      && Reconcile(s1, [rec], 1000, TaskRenotifyDelay) == Outcome(s1, [])
      && Reconcile(s1, [rec], 1800000, TaskRenotifyDelay) ==
           Outcome(map["T1" := TaskState(3600000, {"m1"})], [rec])
      && Reconcile(s1, [], 2000, TaskRenotifyDelay) == Outcome(map[], [])
  {
    ExampleFirstSight();
    ExampleQuiet();
    ExampleDue();
    assert Reconcile(map["T1" := TaskState(1800000, {"m1"})], [], 2000, TaskRenotifyDelay).shown.Keys == {};
  }

  /** A record repeated in one batch is delivered once: the first copy
      acknowledges the meta before the second is considered. */
  lemma ExampleRepeated()
    ensures var rec := Record(true, "/T1", "m1");
      Reconcile(map[], [rec, rec], 0, TaskRenotifyDelay).alerts == [rec]
  {
    var rec := Record(true, "/T1", "m1");
    var batch := [rec, rec];
    ExampleTask();
    assert batch[..1] == [rec];
    ExampleFirstSight();
    ScanSingle(map[], rec, 0, TaskRenotifyDelay);
    assert Scan(map[], batch[..1], 0, TaskRenotifyDelay).shown == map["T1" := TaskState(1800000, {"m1"})];
    assert !DecidedAt(map[], batch, 1, 0, TaskRenotifyDelay);
    assert batch[..0] == [];
    assert DecidedAt(map[], batch, 0, 0, TaskRenotifyDelay);
    assert DecidedUpTo(map[], batch, 1, 0, TaskRenotifyDelay) == [] + [rec];
    assert DecidedUpTo(map[], batch, 2, 0, TaskRenotifyDelay) == [rec] + [];
    var o := Reconcile(map[], batch, 0, TaskRenotifyDelay);
    assert Reverse(o.alerts) == [rec];
    ReverseReverse(o.alerts);
  }

  lemma ExampleTask()
    ensures TaskOf("/T1") == "T1"
  {
    assert "" + "/" + "T1" == "/T1";
    TaskOfDropsFirstSlash("", "T1");
  }

  lemma ExampleFirstSight()
    ensures Reconcile(map[], [Record(true, "/T1", "m1")], 0, TaskRenotifyDelay) ==
      Outcome(map["T1" := TaskState(1800000, {"m1"})], [Record(true, "/T1", "m1")])
  {
    var s1 := map["T1" := TaskState(1800000, {"m1"})];
    ExampleTask();
    ScanSingle(map[], Record(true, "/T1", "m1"), 0, TaskRenotifyDelay);
    assert Consider(map[], "T1", "m1", 0, TaskRenotifyDelay).shown == s1;
    assert Prune(s1, ["T1"]) == s1;
  }

  lemma ExampleQuiet()
    ensures var s1 := map["T1" := TaskState(1800000, {"m1"})];
      Reconcile(s1, [Record(true, "/T1", "m1")], 1000, TaskRenotifyDelay) == Outcome(s1, [])
  {
    var s1 := map["T1" := TaskState(1800000, {"m1"})];
    ExampleTask();
    ScanSingle(s1, Record(true, "/T1", "m1"), 1000, TaskRenotifyDelay);
    assert Prune(s1, ["T1"]) == s1;
  }

  lemma ExampleDue()
    ensures Reconcile(map["T1" := TaskState(1800000, {"m1"})], [Record(true, "/T1", "m1")], 1800000, TaskRenotifyDelay) ==
      Outcome(map["T1" := TaskState(3600000, {"m1"})], [Record(true, "/T1", "m1")])
  {
    ExampleTask();
    DueTaskRealerted(map["T1" := TaskState(1800000, {"m1"})], Record(true, "/T1", "m1"), 1800000, TaskRenotifyDelay);
    assert {"m1"} + {"m1"} == {"m1"};
  }
}

=== FILE: feed.dfy ===
/** The first step of handling a successful panel response: the body may
    carry a non-JSON preamble, so everything before the first `{` is cut off
    before the text is handed to `JSON.parse`. */
module Feed {
  import opened Common

  /** `String.prototype.substring(start)` with one argument: a negative start
      counts as 0 and a start past the end as the length. Positions count
      characters of the string rather than UTF-16 code units. */
  function Substring(s: string, start: int): (r: string)
    ensures |r| <= |s|
    ensures r == s[|s| - |r|..]
    ensures start <= 0 ==> r == s
    ensures 0 <= start <= |s| ==> |r| == |s| - start
  {
    var k := if start < 0 then 0 else if start > |s| then |s| else start;
    s[k..]
  }

  /** `responseText.substring(responseText.indexOf("{"))`. Without a `{`,
      `indexOf` gives -1 and `substring(-1)` keeps the whole text. */
  function StripToBrace(text: string): (json: string)
    ensures '{' !in text ==> json == text
    ensures |json| <= |text|
    ensures '{' in text ==> |json| > 0 && json[0] == '{'
    ensures text == text[..|text| - |json|] + json
    ensures '{' !in text[..|text| - |json|]
  {
    var i := IndexOf(text, '{');
    var json := Substring(text, i);
    assert i < 0 ==> json == text && text[..|text| - |json|] == [];
    assert 0 <= i ==> json == text[i..] && text[..|text| - |json|] == text[..i];
    json
  }

  /** Inverse view: a preamble free of `{` followed by a text that starts
      with `{` is cut back to exactly that text. */
  lemma StripToBraceDropsPreamble(preamble: string, body: string)
    requires '{' !in preamble
    ensures StripToBrace(preamble + "{" + body) == "{" + body
  {
    var t := preamble + "{" + body;
    var i := IndexOf(t, '{');
    assert t[|preamble|] == '{';
    assert t[..|preamble|] == preamble;
    assert t[|preamble|..] == "{" + body;
  }

  /** Cutting twice is the same as cutting once. */
  lemma StripToBraceIdempotent(text: string)
    ensures StripToBrace(StripToBrace(text)) == StripToBrace(text)
  {
    var json := StripToBrace(text);
    if '{' in text {
      assert IndexOf(json, '{') == 0;
    }
  }
}

=== FILE: liveness.dfy ===
/** The cross-tab heartbeat of the user script (`heartbeat()` in
    Notificator.user.js). Every open tab owns one entry of the shared
    `notificator-running` object, keyed by the tab's start time and holding
    the time of its last heartbeat. On each tick a tab sweeps the object in
    property order, deleting stale entries, and stands down (`pause = 1`) as
    soon as it meets a live entry of a tab that started earlier. */
module Liveness {
  import opened Common

  /** `heartbeatDelay`, in milliseconds. */
  const HeartbeatDelay := 1000 * 5

  /** One property of the running object: a tab's start time and its last
      heartbeat. */
  datatype Entry = Entry(key: int, hb: int)

  /** The keys of the object, in any order. */
  function Keys(es: seq<Entry>): set<int>
  {
    if es == [] then {} else {es[0].key} + Keys(es[1..])
  }

  /** The decoded object is a JSON object: no key occurs twice. */
  predicate DistinctKeys(es: seq<Entry>)
  {
    es == [] || (es[0].key !in Keys(es[1..]) && DistinctKeys(es[1..]))
  }

  /** Heartbeats older than this are stale: `hb < now - 2*heartbeatDelay`. */
  function Cutoff(now: int, delay: int): int
  {
    now - 2 * delay
  }

  predicate Live(e: Entry, cutoff: int)
  {
    e.hb >= cutoff
  }

  /** A live entry of a tab that started before `timestart`: such a tab has
      priority over this one. */
  predicate Earlier(e: Entry, timestart: int, cutoff: int)
  {
    Live(e, cutoff) && e.key < timestart
  }

  /** `running[k]`: the value under the first entry with key `k`. */
  function Lookup(es: seq<Entry>, k: int): (v: Option<int>)
    ensures v.None? <==> k !in Keys(es)
  {
    if es == [] then None
    else if es[0].key == k then Some(es[0].hb)
    else Lookup(es[1..], k)
  }

  /** `running[k] = v`: an existing property keeps its place, a new one goes
      last. */
  function Put(es: seq<Entry>, k: int, v: int): (r: seq<Entry>)
    ensures Lookup(r, k) == Some(v)
    ensures forall k' :: k' != k ==> Lookup(r, k') == Lookup(es, k')
  {
    if es == [] then [Entry(k, v)]
    else if es[0].key == k then [Entry(k, v)] + es[1..]
    else [es[0]] + Put(es[1..], k, v)
  }

  /** Reference definition: the live entries, in order. */
  function KeepLive(es: seq<Entry>, cutoff: int): (r: seq<Entry>)
    ensures forall e :: e in r <==> e in es && Live(e, cutoff)
  {
    if es == [] then []
    else if Live(es[0], cutoff) then [es[0]] + KeepLive(es[1..], cutoff)
    else KeepLive(es[1..], cutoff)
  }

  /** Reference definition: the position of the first live entry of an
      earlier tab, or `|es|` when there is none. */
  function FirstEarlier(es: seq<Entry>, timestart: int, cutoff: int): (j: nat)
    ensures j <= |es|
    ensures forall i :: 0 <= i < j ==> !Earlier(es[i], timestart, cutoff)
    ensures j < |es| ==> Earlier(es[j], timestart, cutoff)
  {
    if es == [] then 0
    else if Earlier(es[0], timestart, cutoff) then 0
    else 1 + FirstEarlier(es[1..], timestart, cutoff)
  }

  /** What the `for (let ts in running)` loop leaves behind: the entries still
      in the object, and the `pause` counter. */
  datatype Sweep = Sweep(kept: seq<Entry>, pause: nat)

  /** The loop of lines 35-47, one property at a time in iteration order: a
      stale entry is deleted; a live entry of a later (or the same) tab adds 0;
      a live entry of an earlier tab adds 1 and breaks, leaving the rest of
      the object as it was. */
  function SweepEntries(es: seq<Entry>, timestart: int, cutoff: int): (s: Sweep)
    ensures s.pause <= 1
    ensures s.pause == 1 <==> exists i :: 0 <= i < |es| && Earlier(es[i], timestart, cutoff)
  {
    if es == [] then Sweep([], 0)
    else if es[0].hb < cutoff then SweepEntries(es[1..], timestart, cutoff)
    else if es[0].key >= timestart then
      var s := SweepEntries(es[1..], timestart, cutoff);
      Sweep([es[0]] + s.kept, s.pause)
    else Sweep(es, 1)
  }

  /** The outcome of one heartbeat: the object written back to the store
      (None when nothing is written) and the new `pause`. */
  datatype Beat = Beat(written: Option<seq<Entry>>, pause: nat)

  /** `heartbeat()`, lines 28-51. `pause` is reset to 0 first; a missing key
      leaves `running = {}`; a malformed value makes `JSON.parse` throw, so
      the tick ends with `pause` at 0 and writes nothing; otherwise the sweep
      runs and this tab's own entry is set to `now`. */
  function Tick(stored: Stored<seq<Entry>>, timestart: int, now: int, delay: int): (b: Beat)
    ensures b.written.None? <==> stored.Malformed?
    ensures b.pause <= 1
    ensures b.written.Some? ==> Lookup(b.written.value, timestart) == Some(now)
  {
    match stored
    case Absent => Beat(Some(Put([], timestart, now)), 0)
    case Malformed => Beat(None, 0)
    case Present(es) =>
      var s := SweepEntries(es, timestart, Cutoff(now, delay));
      Beat(Some(Put(s.kept, timestart, now)), s.pause)
  }

  // ---------------------------------------------------------------------
  // Properties of the sweep
  // ---------------------------------------------------------------------

  /** The sweep deletes exactly the stale entries before the break point and
      leaves everything from the break point on untouched; it breaks (and
      pauses) exactly when there is a live entry of an earlier tab. */
  lemma SweepShape(es: seq<Entry>, timestart: int, cutoff: int)
    ensures var j := FirstEarlier(es, timestart, cutoff);
      && SweepEntries(es, timestart, cutoff).kept == KeepLive(es[..j], cutoff) + es[j..]
      && (SweepEntries(es, timestart, cutoff).pause == 1 <==> j < |es|)
  {
    SweptPrefix(es, timestart, cutoff);
  }

  lemma {:induction false} SweptPrefix(es: seq<Entry>, timestart: int, cutoff: int)
    ensures var j := FirstEarlier(es, timestart, cutoff);
      SweepEntries(es, timestart, cutoff).kept == KeepLive(es[..j], cutoff) + es[j..]
  {
    if es == [] {
      assert es[..0] == [] && es[0..] == [];
    } else if Earlier(es[0], timestart, cutoff) {
      assert es[..0] == [] && es[0..] == es;
    } else {
      var tail := es[1..];
      SweptPrefix(tail, timestart, cutoff);
      var j := FirstEarlier(es, timestart, cutoff);
      var jt := FirstEarlier(tail, timestart, cutoff);
      assert j == jt + 1;
      assert es[..j] == [es[0]] + tail[..jt];
      assert es[j..] == tail[jt..];
      assert KeepLive(es[..j], cutoff) ==
        (if Live(es[0], cutoff) then [es[0]] else []) + KeepLive(tail[..jt], cutoff);
    }
  }

  lemma {:induction false} InKeys(es: seq<Entry>, e: Entry)
    requires e in es
    ensures e.key in Keys(es)
  {
    if es[0] != e {
      InKeys(es[1..], e);
    }
  }

  lemma {:induction false} KeepLiveKeys(es: seq<Entry>, cutoff: int)
    ensures Keys(KeepLive(es, cutoff)) <= Keys(es)
    ensures DistinctKeys(es) ==> DistinctKeys(KeepLive(es, cutoff))
  {
    if es != [] {
      KeepLiveKeys(es[1..], cutoff);
    }
  }

  /** The swept object is still a JSON object (no key twice), with no key
      that was not there before. */
  lemma {:induction false} SweepKeys(es: seq<Entry>, timestart: int, cutoff: int)
    ensures Keys(SweepEntries(es, timestart, cutoff).kept) <= Keys(es)
    ensures DistinctKeys(es) ==> DistinctKeys(SweepEntries(es, timestart, cutoff).kept)
  {
    if es != [] && !Earlier(es[0], timestart, cutoff) {
      SweepKeys(es[1..], timestart, cutoff);
    }
  }

  lemma {:induction false} PutKeys(es: seq<Entry>, k: int, v: int)
    ensures Keys(Put(es, k, v)) == Keys(es) + {k}
    ensures DistinctKeys(es) ==> DistinctKeys(Put(es, k, v))
  {
    if es != [] && es[0].key != k {
      PutKeys(es[1..], k, v);
    }
  }

  lemma {:induction false} LookupFinds(es: seq<Entry>, e: Entry)
    requires DistinctKeys(es) && e in es
    ensures Lookup(es, e.key) == Some(e.hb)
  {
    if es[0] != e {
      assert e in es[1..];
      InKeys(es[1..], e);
      LookupFinds(es[1..], e);
    }
  }

  lemma {:induction false} LookupIsEntry(es: seq<Entry>, k: int)
    requires Lookup(es, k).Some?
    ensures Entry(k, Lookup(es, k).value) in es
  {
    if es[0].key != k {
      LookupIsEntry(es[1..], k);
    }
  }

  /** Every live entry survives the sweep, and the sweep invents nothing. */
  lemma SweepKeepsLive(es: seq<Entry>, timestart: int, cutoff: int)
    ensures forall e :: e in es && Live(e, cutoff) ==> e in SweepEntries(es, timestart, cutoff).kept
    ensures forall e :: e in SweepEntries(es, timestart, cutoff).kept ==> e in es
  {
    var j := FirstEarlier(es, timestart, cutoff);
    SweptPrefix(es, timestart, cutoff);
    var kept := SweepEntries(es, timestart, cutoff).kept;
    var pre := KeepLive(es[..j], cutoff);
    var post := es[j..];
    assert kept == pre + post;
    assert es == es[..j] + post;
    forall e | e in es && Live(e, cutoff) ensures e in kept {
      if e in es[..j] {
        assert e in pre;
      } else {
        assert e in post;
      }
    }
    forall e | e in kept ensures e in es {
      if e in pre {
        assert e in es[..j];
      } else {
        assert e in post;
      }
    }
  }

  // ---------------------------------------------------------------------
  // Properties of one heartbeat
  // ---------------------------------------------------------------------

  /** After a heartbeat the object is still a JSON object and holds this
      tab's entry at `now`; every live entry of another tab is still there
      with its heartbeat, and nothing appears that was not there before. */
  lemma TickKeepsLive(es: seq<Entry>, timestart: int, now: int, delay: int)
    requires DistinctKeys(es)
    ensures var w := Tick(Present(es), timestart, now, delay).written.value;
      && DistinctKeys(w)
      && Lookup(w, timestart) == Some(now)
      && (forall e :: e in es && Live(e, Cutoff(now, delay)) && e.key != timestart ==>
            Lookup(w, e.key) == Some(e.hb))
      && (forall k :: k != timestart && Lookup(w, k).Some? ==> Lookup(w, k) == Lookup(es, k))
  {
    var cutoff := Cutoff(now, delay);
    var kept := SweepEntries(es, timestart, cutoff).kept;
    var w := Tick(Present(es), timestart, now, delay).written.value;
    SweepKeys(es, timestart, cutoff);
    PutKeys(kept, timestart, now);
    SweepKeepsLive(es, timestart, cutoff);
    forall e | e in es && Live(e, cutoff) && e.key != timestart
      ensures Lookup(w, e.key) == Some(e.hb)
    {
      LookupFinds(kept, e);
    }
    forall k | k != timestart && Lookup(w, k).Some?
      ensures Lookup(w, k) == Lookup(es, k)
    {
      LookupIsEntry(kept, k);
      LookupFinds(es, Entry(k, Lookup(kept, k).value));
    }
  }

  /** `pause` ends at 0 or 1, and at 1 exactly when the decoded object holds
      a live entry of a tab that started earlier. */
  lemma TickPause(stored: Stored<seq<Entry>>, timestart: int, now: int, delay: int)
    ensures var b := Tick(stored, timestart, now, delay);
      b.pause == 1 <==>
        stored.Present? &&
        exists i :: 0 <= i < |stored.value| && Earlier(stored.value[i], timestart, Cutoff(now, delay))
    ensures Tick(stored, timestart, now, delay).pause != 1 ==> Tick(stored, timestart, now, delay).pause == 0
  {
  }

  /** When `pause` ends at 0 the loop ran to completion: every stale entry
      has been deleted, only this tab's fresh entry may have been added, and
      the written object still has no key twice. */
  lemma {:induction false} CompleteSweep(es: seq<Entry>, timestart: int, now: int, delay: int)
    requires Tick(Present(es), timestart, now, delay).pause == 0
    ensures Tick(Present(es), timestart, now, delay).written ==
      Some(Put(KeepLive(es, Cutoff(now, delay)), timestart, now))
    ensures Keys(Put(KeepLive(es, Cutoff(now, delay)), timestart, now)) <= Keys(es) + {timestart}
    ensures DistinctKeys(es) ==> DistinctKeys(Put(KeepLive(es, Cutoff(now, delay)), timestart, now))
  {
    KeepLiveKeys(es, Cutoff(now, delay));
    PutKeys(KeepLive(es, Cutoff(now, delay)), timestart, now);
    SweepShape(es, timestart, Cutoff(now, delay));
    assert FirstEarlier(es, timestart, Cutoff(now, delay)) == |es|;
    assert es[..|es|] == es;
    assert es[|es|..] == [];
    assert KeepLive(es, Cutoff(now, delay)) + [] == KeepLive(es, Cutoff(now, delay));
  }

  /** When `pause` ends at 1 the loop broke at the first live entry of an
      earlier tab: stale entries before it are gone, and it and every entry
      after it are written back unchanged (stale or not), apart from this
      tab's own entry, which is set to `now` wherever it is. */
  lemma {:induction false} BrokenSweep(es: seq<Entry>, timestart: int, now: int, delay: int)
    requires Tick(Present(es), timestart, now, delay).pause == 1
    ensures var j := FirstEarlier(es, timestart, Cutoff(now, delay));
      && j < |es|
      && Tick(Present(es), timestart, now, delay).written ==
           Some(Put(KeepLive(es[..j], Cutoff(now, delay)) + es[j..], timestart, now))
  {
    SweepShape(es, timestart, Cutoff(now, delay));
  }

  /** For one snapshot of the store, two different tabs that both have live
      entries cannot both lead. */
  lemma AtMostOneLeader(es: seq<Entry>, t1: int, t2: int, now: int, delay: int)
    requires t1 != t2
    requires exists i :: 0 <= i < |es| && es[i].key == t1 && Live(es[i], Cutoff(now, delay))
    requires exists i :: 0 <= i < |es| && es[i].key == t2 && Live(es[i], Cutoff(now, delay))
    ensures Tick(Present(es), t1, now, delay).pause == 1 || Tick(Present(es), t2, now, delay).pause == 1
  {
    var i1 :| 0 <= i1 < |es| && es[i1].key == t1 && Live(es[i1], Cutoff(now, delay));
    var i2 :| 0 <= i2 < |es| && es[i2].key == t2 && Live(es[i2], Cutoff(now, delay));
    if t1 < t2 {
      assert Earlier(es[i1], t2, Cutoff(now, delay));
    } else {
      assert Earlier(es[i2], t1, Cutoff(now, delay));
    }
  }

  /** The tab with the earliest start time among the live entries leads. */
  lemma EarliestLeads(es: seq<Entry>, timestart: int, now: int, delay: int)
    requires forall i :: 0 <= i < |es| && Live(es[i], Cutoff(now, delay)) ==> timestart <= es[i].key
    ensures Tick(Present(es), timestart, now, delay).pause == 0
  {
  }

  /** A running value that is not valid JSON is never repaired by the
      heartbeat: the parse throws before the write, after `pause` has been
      reset, so a tab already running reads `pause` 0 and acts as leader,
      and the store keeps the same text. (A tab that starts while the value
      is corrupt throws in its first heartbeat, before its timers are set,
      and never heartbeats or polls; that startup path is outside `Tick`.) */
  lemma MalformedStoreLeads(timestart: int, now: int, delay: int)
    ensures Tick(Malformed, timestart, now, delay) == Beat(None, 0)
  {
  }
}

=== FILE: poll.dfy ===
/** One run of `main()` in Notificator.user.js, from the `pause` gate to the
    list handed to the notification sink. The request, the markup parsing and
    the sink are outside the model: the completed request is an input, and
    `extract` stands for `JSON.parse` of the response plus the extraction of
    the records from `payload.content`. */
module PollLoop {
  import opened Common
  import opened Liveness
  import opened Feed
  import opened Dedup

  /** The request once `readyState` is 4. */
  datatype Response = Response(status: int, text: string)

  /** How a run of `main()` ends: skipped because another tab leads, ended
      by a rejected or throwing promise step (nothing written, nothing
      raised), or with the new `notificator-shown` object written and the
      records handed to the sink in order. */
  datatype Cycle = Paused | Aborted | Delivered(shown: Shown, alerts: seq<Record>)

  /** Lines 93-171. A paused tab returns at once (94-97); a status other than
      200 rejects (105-107); `JSON.parse` of the text from the first `{` on
      may fail (119-122); a malformed `notificator-shown` makes the second
      parse throw (127-131); otherwise the batch is reconciled with
      `taskRenotifyDelay`. */
  function MainCycle(pause: nat, response: Response, extract: string -> Option<seq<Record>>,
                     stored: Stored<Shown>, now: int): (c: Cycle)
    ensures c.Paused? <==> pause > 0
    ensures c.Aborted? <==>
      pause == 0 &&
      (response.status != 200 || extract(StripToBrace(response.text)).None? || stored.Malformed?)
  {
    if pause > 0 then Paused
    else if response.status != 200 then Aborted
    else
      var parsed := extract(StripToBrace(response.text));
      if parsed.None? || stored.Malformed? then Aborted
      else
        var shown := if stored.Present? then stored.value else map[];
        var o := Reconcile(shown, parsed.value, now, TaskRenotifyDelay);
        Delivered(o.shown, o.alerts)
  }

  /** A delivering run writes back exactly the tasks of the batch's unread
      records and hands only unread records of the batch to the sink. */
  lemma DeliveredRun(pause: nat, response: Response, extract: string -> Option<seq<Record>>,
                     stored: Stored<Shown>, now: int)
    ensures var c := MainCycle(pause, response, extract, stored, now);
      c.Delivered? ==>
        && extract(StripToBrace(response.text)).Some?
        && var batch := extract(StripToBrace(response.text)).value;
        && c.shown.Keys == UnreadTasks(batch)
        && forall a :: a in c.alerts ==> a in batch && a.unread
  {
    var c := MainCycle(pause, response, extract, stored, now);
    if c.Delivered? {
      var batch := extract(StripToBrace(response.text)).value;
      var shown := if stored.Present? then stored.value else map[];
      var o := Reconcile(shown, batch, now, TaskRenotifyDelay);
      assert c == Delivered(o.shown, o.alerts);
    }
  }

  /** A missing `notificator-shown` key behaves as an empty object. */
  lemma AbsentShownIsEmpty(pause: nat, response: Response, extract: string -> Option<seq<Record>>, now: int)
    ensures MainCycle(pause, response, extract, Absent, now) ==
      MainCycle(pause, response, extract, Present(map[]), now)
  {
  }

  /** A tab whose heartbeat met a live entry of an earlier tab skips the
      next run of `main()` entirely. */
  lemma FollowerSkipsCycle(es: seq<Entry>, timestart: int, beatAt: int, response: Response,
                           extract: string -> Option<seq<Record>>, stored: Stored<Shown>, now: int)
    requires exists i :: 0 <= i < |es| && Earlier(es[i], timestart, Cutoff(beatAt, HeartbeatDelay))
    ensures var b := Tick(Present(es), timestart, beatAt, HeartbeatDelay);
      MainCycle(b.pause, response, extract, stored, now) == Paused
  {
    TickPause(Present(es), timestart, beatAt, HeartbeatDelay);
  }

  /** The tab with the earliest live start time is never paused: it fetches,
      and with a 200 response, a parsable body and a readable store it
      delivers. */
  lemma LeaderPolls(es: seq<Entry>, timestart: int, beatAt: int, response: Response,
                    extract: string -> Option<seq<Record>>, stored: Stored<Shown>, now: int)
    requires forall i :: 0 <= i < |es| && Live(es[i], Cutoff(beatAt, HeartbeatDelay)) ==> timestart <= es[i].key
    requires response.status == 200 && extract(StripToBrace(response.text)).Some? && !stored.Malformed?
    ensures var b := Tick(Present(es), timestart, beatAt, HeartbeatDelay);
      MainCycle(b.pause, response, extract, stored, now).Delivered?
  {
    EarliestLeads(es, timestart, beatAt, HeartbeatDelay);
  }
}
